=== FILE: README.md ===
# Note service model

A Dafny model of the note persistence core of the Mediscreen note
microservice: the `Note` entity, the not-found error and its message, the
sequence generator that mints note ids, and the `NoteService` operations
(`findNoteById`, `getAllNotes`, `getNotesByPatientId`, `createNote`,
`updateNote`, `deleteNote`) over an in-memory stand-in for the document store.

Modules, one per source concern:

- `Wrappers` — `Option` (Java's `Optional` and `null`) and `Result` (a value
  or the exception a call throws).
- `NoteModel` — `Note.java`: the mutable `Note` class with its two
  constructors, getters and setters; `NoteRecord`, the four fields as a value
  (what the store persists and what the transfer object carries);
  `SequenceName`; Java's `int` as `int32` and the narrowing cast `(int)` that
  `createNote` applies to the generator's `long` (`LongToInt`, written out:
  past 2^31 - 1 it wraps to negative ids and, after 2^32 values, back to ids
  already issued).
- `NoteErrors` — `NoteNotFoundException.java`: the error carrying the id and
  its message, a fixed prefix followed by the decimal form of the id (as
  `Integer.toString` writes it: no leading zeros, no `-0`), with a parser that
  reads the id back.
- `SequenceGeneration` — the sequence generator: a class holding a map from
  sequence name to counter; the store's atomic upsert-and-increment; the
  fallback to 1 when the store reports no counter document. Whether the store
  reports the document is the parameter `reported`. Once the sequence has
  issued a value, the fallback 1 is one it already issued; for a new sequence
  it is the value the next reported call issues again. Either way the id is
  issued twice.
- `NoteStore` — the `notes` collection: a map from id to record plus the
  order in which a full scan returns them; `save` inserts or replaces,
  `delete` removes.
- `NoteServices` — `NoteService.java`: lookups and listings as functions,
  create/update/delete as methods that change the store, three scenario
  methods modelled on the integration test (`NoteIT.java`), and one that
  shows the fallback id.
  `CreateTwoNotes` and `TwoNotesForOnePatient` follow its set-up and listing
  tests. `ThirdNoteUpdatedThenDeleted` chains its create, update and delete
  tests on one store and adds what the test does not do: a second delete and
  a lookup after the delete. `FallbackOverwritesFirstNote` has no counterpart
  in the test: it shows a creation that takes the fallback id 1.

`LocalDate.now()` is the parameter `today`. The object mapper is a
field-for-field copy, so the transfer object is the record type itself
(`NoteDto = NoteRecord`) and mapping there and back is the identity.

The note sequence is named `"users_sequence"` (`Note.java:18`), and the
not-found message begins with a space (`NoteNotFoundException.java:13`).

## Model

| member | source | states |
|---|---|---|
| `NoteModel.LongToInt` | src/main/java/com/mediscreen/note/service/NoteService.java:91 | the `(int)` cast keeps the value modulo 2^32 and is the identity on every value in the `int` range |
| `NoteModel.LongToIntInjectiveInWindow` | src/main/java/com/mediscreen/note/service/NoteService.java:91 | counter values less than 2^32 apart (in particular consecutive ones) give distinct ids |
| `NoteModel.LongToIntWraps` | src/main/java/com/mediscreen/note/service/NoteService.java:91 | the value after the largest `int` gives a negative id, and 2^32 + 1 gives id 1 again |
| `NoteModel.Note.constructor` | src/main/java/com/mediscreen/note/model/Note.java:36-37 | `new Note()` leaves id and patient id 0 and text and date unset |
| `NoteModel.Note.WithText` | src/main/java/com/mediscreen/note/model/Note.java:39-42 | `new Note(patientId, note)` sets exactly those two fields; id stays 0 and date unset |
| `NoteModel.Note.SetId` | src/main/java/com/mediscreen/note/model/Note.java:53-59 | `getId` then returns the value set, and no other field changes |
| `NoteModel.Note.SetPatientId` | src/main/java/com/mediscreen/note/model/Note.java:44-50 | `getPatientId` then returns the value set, and no other field changes |
| `NoteModel.Note.SetNote` | src/main/java/com/mediscreen/note/model/Note.java:61-67 | `getNote` then returns the value set, and no other field changes |
| `NoteModel.Note.SetDate` | src/main/java/com/mediscreen/note/model/Note.java:69-75 | `getDate` then returns the value set, and no other field changes |
| `NoteModel.NewNoteFrom` | src/main/java/com/mediscreen/note/service/NoteService.java:90 | mapping a transfer object to a new `Note` gives a fresh object whose four fields equal the input's |
| `NoteErrors.NoteNotFound.Message` | src/main/java/com/mediscreen/note/exception/NoteNotFoundException.java:11-14 | every message starts with the fixed prefix, and what follows it is a canonical decimal integer (no leading zero unless it is "0", never "-0") that reads back as the id |
| `NoteErrors.IntRoundTrip` | src/main/java/com/mediscreen/note/exception/NoteNotFoundException.java:13 | the decimal form of an integer (minus sign for negatives) parses back to that integer |
| `NoteErrors.NatToDecimal` | src/main/java/com/mediscreen/note/exception/NoteNotFoundException.java:13 | the canonical digits of a natural, starting with '0' only for 0 |
| `NoteErrors.IntToDecimal` | src/main/java/com/mediscreen/note/exception/NoteNotFoundException.java:13 | writes the canonical decimal form: a minus sign for negatives, no leading zero, never -0 |
| `NoteErrors.NatRoundTrip` | src/main/java/com/mediscreen/note/exception/NoteNotFoundException.java:13 | the digits of a natural number evaluate back to that number |
| `NoteErrors.CanonicalNatRoundTrip` | src/main/java/com/mediscreen/note/exception/NoteNotFoundException.java:13 | a digit string without a superfluous leading zero is exactly the decimal form of its value |
| `NoteErrors.CanonicalIntSign` | src/main/java/com/mediscreen/note/exception/NoteNotFoundException.java:13 | a canonical integer string reads back, and reads as negative exactly when it starts with a minus sign |
| `NoteErrors.CanonicalIntUnique` | src/main/java/com/mediscreen/note/exception/NoteNotFoundException.java:13 | two canonical integer strings that read as the same integer are the same string |
| `NoteErrors.MessageSuffixIsTheDecimalForm` | src/main/java/com/mediscreen/note/exception/NoteNotFoundException.java:11-14 | the text after the prefix is the only canonical decimal string that reads as the id |
| `NoteErrors.MessageOfOne` | src/test/java/com/mediscreen/note/controller/ExceptionHandlerControllerTest.java:24-28 | the message for id 1 is exactly " Note does not exist with id : 1" |
| `NoteErrors.MessageInjective` | src/main/java/com/mediscreen/note/exception/NoteNotFoundException.java:13 | two ids give the same message if and only if they are equal |
| `SequenceGeneration.Increment` | src/test/java/com/mediscreen/note/service/SequenceGeneratorServiceTest.java:36-43 | the upsert-and-increment creates the counter if absent, raises it by one and leaves every other sequence's counter alone |
| `SequenceGeneration.SequenceValue` | src/test/java/com/mediscreen/note/service/SequenceGeneratorServiceTest.java:53-60 | the counter value of the reported document, or 1 when the store reports none |
| `SequenceGeneration.FallbackReissuesUsedValue` | src/test/java/com/mediscreen/note/service/SequenceGeneratorServiceTest.java:53-60 | once a sequence has issued a value, the fallback 1 is one of the values it already issued |
| `SequenceGeneration.FallbackIsFirstValue` | src/test/java/com/mediscreen/note/service/SequenceGeneratorServiceTest.java:53-60 | when the store reports no document the generator returns 1, which is the first value a new sequence receives |
| `SequenceGeneration.IssuedIncreasing` | src/test/java/com/mediscreen/note/service/SequenceGeneratorServiceTest.java:36-43 | k successive calls for one name that the store reports return k positive, strictly increasing values, counter + 1 up to counter + k |
| `SequenceGeneration.GenerateReported` | src/test/java/com/mediscreen/note/service/SequenceGeneratorServiceTest.java:36-43 | k successive reported calls for one name return exactly the values `Issued` describes, counter + 1 up to counter + k |
| `SequenceGeneration.SequenceGenerator.FindAndModify` | src/test/java/com/mediscreen/note/service/SequenceGeneratorServiceTest.java:36-43 | when the store reports the document, the counter is upserted and raised by one and the reply carries the new value; otherwise the reply is empty and no counter changes |
| `SequenceGeneration.SequenceGenerator.GenerateSequence` | src/test/java/com/mediscreen/note/service/SequenceGeneratorServiceTest.java:36-60 | when the document is reported, returns the counter's new value, one more than its old one, and advances only that sequence; when it is not, returns 1 and changes no counter |
| `NoteStore.NoteRepository.FindById` | src/main/java/com/mediscreen/note/service/NoteService.java:44 | finds a note exactly when one is stored under the id, returns that note, and its id is the one asked for |
| `NoteStore.NoteRepository.FindAll` | src/main/java/com/mediscreen/note/service/NoteService.java:58 | one entry per id in the scan order, each the note stored under that id |
| `NoteStore.NoteRepository.FindAllIsComplete` | src/main/java/com/mediscreen/note/service/NoteService.java:58 | a full scan yields every stored note exactly once: as many entries as stored notes, and a record occurs iff it is stored under its id |
| `NoteStore.NoteRepository.Save` | src/main/java/com/mediscreen/note/service/NoteService.java:93 | saving inserts a new id at the end of the scan order or replaces the note stored under the same id in place |
| `NoteStore.NoteRepository.Delete` | src/main/java/com/mediscreen/note/service/NoteService.java:130 | deleting removes that id from the map and from the scan order and keeps the store consistent |
| `NoteStore.RemoveId` | src/main/java/com/mediscreen/note/service/NoteService.java:130 | removing an id from the scan order keeps exactly the other ids and no duplicates |
| `NoteStore.RemoveIdKeepsOrder` | src/main/java/com/mediscreen/note/service/NoteService.java:130 | removal distributes over concatenation, so the remaining ids keep their relative scan order |
| `NoteServices.NoteService.constructor` | src/main/java/com/mediscreen/note/service/NoteService.java:25-29 | the service holds the repository and generator it is given, and starts consistent |
| `NoteServices.NoteService.FindNoteById` | src/main/java/com/mediscreen/note/service/NoteService.java:41-48 | returns the stored note when the id is present, and fails with the not-found error for that id otherwise; a function, so the store is unchanged |
| `NoteServices.NoteService.GetAllNotes` | src/main/java/com/mediscreen/note/service/NoteService.java:55-64 | one entry per stored note in the store's scan order; as many entries as stored notes |
| `NoteServices.NotesOfPatient` | src/main/java/com/mediscreen/note/service/NoteService.java:73-75 | the filter keeps exactly the notes of that patient; none when no note matches, all when every note matches |
| `NoteServices.NotesOfPatientKeepsOrder` | src/main/java/com/mediscreen/note/service/NoteService.java:73-75 | filtering a concatenation is the concatenation of the filtered parts, so scan order is kept |
| `NoteServices.NoteService.GetNotesByPatientId` | src/main/java/com/mediscreen/note/service/NoteService.java:71-80 | exactly the stored notes whose patient id matches, in scan order; empty when the patient has no note |
| `NoteServices.NoteService.CreateNote` | src/main/java/com/mediscreen/note/service/NoteService.java:88-96 | the new id is the note sequence's next value narrowed to `int` (1 when the store reports no counter document), the date is today, patient id and text come from the input, the returned note is the stored one; when the document is reported, all stored ids came from the sequence and it has not passed the `int` range, the id is new and that invariant holds again |
| `NoteServices.NoteService.UpdateNote` | src/main/java/com/mediscreen/note/service/NoteService.java:106-117 | on a missing id fails with not-found and changes nothing; otherwise keeps the id, sets patient id and text from the input and date to today, changes no other note, and a lookup then returns the updated note |
| `NoteServices.NoteService.DeleteNote` | src/main/java/com/mediscreen/note/service/NoteService.java:125-132 | on a missing id fails with not-found and deletes nothing; otherwise removes only that note; either way a later lookup of the id fails with not-found |
| `NoteServices.NoteIdsUseOwnSequence` | src/main/java/com/mediscreen/note/model/Note.java:18 | the note sequence's name is "users_sequence", and incrementing its counter leaves every other sequence's counter unchanged |
| `NoteServices.CreateTwoNotes` | src/test/java/com/mediscreen/note/integration/NoteIT.java:39-45 | two creations for patient 2 into an empty store get ids 1 and 2 and are scanned in that order |
| `NoteServices.TwoNotesForOnePatient` | src/test/java/com/mediscreen/note/integration/NoteIT.java:63-93 | from an empty store, the full listing and patient 2's listing are both the two created notes, in creation order |
| `NoteServices.ThirdNoteUpdatedThenDeleted` | src/test/java/com/mediscreen/note/integration/NoteIT.java:96-138 | after the set-up, a note for patient 1 gets id 3, updating it to patient 6 keeps id 3, and deleting it succeeds once; a second delete and a lookup then fail with not-found for 3 |
| `NoteServices.FallbackOverwritesFirstNote` | src/main/java/com/mediscreen/note/service/NoteService.java:91-93 | when the store reports no counter document after two creations, the new note gets id 1 and replaces the first note in the listing |

## Left out

- HTTP controllers, routing, status codes and OpenAPI metadata: transport plumbing, outside the core.
- The Mongo driver: `NoteRepository.java` only declares an interface; the store is a map plus a scan order, and the scan order is insertion order, with a replaced note keeping its place.
- Concurrency: every call runs alone, so neither the atomicity of the counter's find-and-modify nor the check-then-act races of update and delete are modelled.
- The sequence generator's own source is not part of this model; its contract comes from its test. Counters are unbounded naturals, so a `long` counter overflowing is not modelled.
- When the store reports no counter document, the model assumes no counter changed, as with the test's mocked store; once the note sequence has issued a value, the fallback id 1 is one it already issued, and creating a note with it overwrites the note stored under id 1 (`FallbackOverwritesFirstNote`); for a new sequence, 1 is the id the next reported call issues again.
- `LocalDate.now()` reads the system clock; it is the parameter `today`, and dates are opaque values.
- The object mapper is a foreign library; it is modelled as a field-for-field copy.
- Bean-validation annotations (`@NotNull`, `@NotBlank`): the service does not check them, so they are neither preconditions nor error paths here.
- Logging and application start-up.
- The getters (`GetId`, `GetPatientId`, `GetNote`, `GetDate`) carry no contract of their own; what they return is stated by the setters' and constructors' contracts.

=== FILE: note_errors.dfy ===
/** The not-found error: it carries the offending id and renders a message
    made of a fixed prefix and the decimal form of the id. */
module NoteErrors {
  import opened Wrappers
  import opened NoteModel

  const Prefix: string := " Note does not exist with id : "

  datatype NoteNotFound = NoteNotFound(id: int32)
  {
    /** The exception's message. */
    function Message(): (m: string)
      ensures Prefix <= m
      ensures IsCanonicalInt(m[|Prefix|..])
      ensures ParseInt(m[|Prefix|..]) == Some(id as int)
    {
      IntRoundTrip(id as int);
      assert (Prefix + IntToDecimal(id as int))[|Prefix|..] == IntToDecimal(id as int);
      Prefix + IntToDecimal(id as int)
    }
  }

  predicate IsDigit(c: char) {
    '0' <= c <= '9'
  }

  predicate AllDigits(s: string) {
    forall i :: 0 <= i < |s| ==> IsDigit(s[i])
  }

  function DigitChar(d: nat): (c: char)
    requires d < 10
  {
    ('0' as int + d) as char
  }

  function DigitValue(c: char): (d: nat)
    requires IsDigit(c)
  {
    c as int - '0' as int
  }

  /** Decimal digits without a superfluous leading zero: "0" itself, or
      digits that do not start with '0'. */
  predicate IsCanonicalNat(s: string) {
    |s| >= 1 && AllDigits(s) && (s[0] == '0' ==> |s| == 1)
  }

  /** The form `Integer.toString` writes: a canonical natural, or a minus
      sign followed by a canonical natural other than "0". */
  predicate IsCanonicalInt(s: string) {
    || IsCanonicalNat(s)
    || (|s| >= 2 && s[0] == '-' && IsCanonicalNat(s[1..]) && s[1] != '0')
  }

  /** Decimal digits of a natural number, most significant first, no leading zeros. */
  function NatToDecimal(n: nat): (s: string)
    ensures IsCanonicalNat(s)
    ensures s[0] == '0' <==> n == 0
    decreases n
  {
    if n < 10 then [DigitChar(n)] else NatToDecimal(n / 10) + [DigitChar(n % 10)]
  }

  /** The value of a string of decimal digits. */
  function DecimalValue(s: string): nat
    requires AllDigits(s)
  {
    if s == [] then 0 else 10 * DecimalValue(s[..|s| - 1]) + DigitValue(s[|s| - 1])
  }

  /** Java's `Integer.toString`: a minus sign for negative values, then the digits. */
  function IntToDecimal(i: int): (s: string)
    ensures IsCanonicalInt(s)
  {
    if i < 0 then
      var digits := NatToDecimal(-i);
      assert ("-" + digits)[1..] == digits;
      "-" + digits
    else NatToDecimal(i)
  }

  /** Reads back what `IntToDecimal` writes; `None` for anything else. */
  function ParseInt(s: string): Option<int> {
    if |s| >= 2 && s[0] == '-' && AllDigits(s[1..]) then Some(-(DecimalValue(s[1..]) as int))
    else if |s| >= 1 && AllDigits(s) then Some(DecimalValue(s))
    else None
  }

  lemma {:induction false} NatRoundTrip(n: nat)
    ensures DecimalValue(NatToDecimal(n)) == n
    decreases n
  {
    var s := NatToDecimal(n);
    if n < 10 {
      assert s[..|s| - 1] == [];
    } else {
      NatRoundTrip(n / 10);
      assert s[..|s| - 1] == NatToDecimal(n / 10);
    }
  }

  lemma IntRoundTrip(i: int)
    ensures ParseInt(IntToDecimal(i)) == Some(i)
  {
    var s := IntToDecimal(i);
    if i < 0 {
      var d := NatToDecimal(-i);
      assert s[1..] == d;
      NatRoundTrip(-i);
    } else {
      NatRoundTrip(i);
      assert IsDigit(s[0]);
    }
  }

  /** A digit string without a superfluous leading zero is the decimal form
      of its value. */
  lemma {:induction false} CanonicalNatRoundTrip(s: string)
    requires IsCanonicalNat(s)
    ensures NatToDecimal(DecimalValue(s)) == s
    decreases |s|
  {
    var last := s[|s| - 1];
    var init := s[..|s| - 1];
    if |s| == 1 {
      assert init == [];
      assert DigitChar(DigitValue(last)) == last;
    } else {
      assert init[0] == s[0] != '0';
      CanonicalNatRoundTrip(init);
      var v := DecimalValue(init);
      assert NatToDecimal(v)[0] != '0';
      assert DecimalValue(s) / 10 == v && DecimalValue(s) % 10 == DigitValue(last);
      assert DigitChar(DigitValue(last)) == last;
      assert s == init + [last];
    }
  }

  /** A canonical integer reads back, and it is negative exactly when it
      starts with a minus sign (no "-0"). */
  lemma CanonicalIntSign(s: string)
    requires IsCanonicalInt(s)
    ensures ParseInt(s).Some?
    ensures ParseInt(s).value < 0 <==> s[0] == '-'
  {
    if s[0] == '-' {
      CanonicalNatRoundTrip(s[1..]);
      assert NatToDecimal(DecimalValue(s[1..]))[0] != '0';
    }
  }

  /** The canonical form of an integer is unique: two canonical strings that
      read as the same integer are the same string. */
  lemma CanonicalIntUnique(s: string, t: string)
    requires IsCanonicalInt(s) && IsCanonicalInt(t)
    requires ParseInt(s) == ParseInt(t)
    ensures s == t
  {
    CanonicalIntSign(s);
    CanonicalIntSign(t);
    if s[0] == '-' {
      CanonicalNatRoundTrip(s[1..]);
      CanonicalNatRoundTrip(t[1..]);
      assert s == "-" + s[1..] && t == "-" + t[1..];
    } else {
      CanonicalNatRoundTrip(s);
      CanonicalNatRoundTrip(t);
    }
  }

  /** The text after the prefix is the one canonical decimal form of the id:
      any canonical string that reads as the id is that text. */
  lemma MessageSuffixIsTheDecimalForm(e: NoteNotFound, s: string)
    requires IsCanonicalInt(s) && ParseInt(s) == Some(e.id as int)
    ensures e.Message()[|Prefix|..] == s
  {
    var m := e.Message();
    CanonicalIntUnique(m[|Prefix|..], s);
  }

  /** The message for id 1, as the error handler's test expects it. */
  lemma MessageOfOne()
    ensures NoteNotFound(1).Message() == " Note does not exist with id : 1"
  {
  }

  /** Distinct ids give distinct messages. */
  lemma MessageInjective(a: int32, b: int32)
    ensures NoteNotFound(a).Message() == NoteNotFound(b).Message() <==> a == b
  {
  }
}

=== FILE: note_model.dfy ===
/** The `Note` entity: a mutable object with four fields, its constructors,
    getters and setters, the persisted/transfer record it is copied to and
    from, and the name of the sequence that mints note ids. */
module NoteModel {
  import opened Wrappers

  /** Java's 32-bit `int`. */
  newtype int32 = x: int | -0x8000_0000 <= x < 0x8000_0000

  const MaxInt32: int := 0x7fff_ffff

  /** A calendar date (`java.time.LocalDate`); the model never inspects it. */
  datatype Date = Date(year: int, month: int, day: int)

  /** The name of the sequence whose counter mints note ids. */
  const SequenceName: string := "users_sequence"

  /** The four fields of a note as a value: what the document store persists
      and what the transfer object carries. `None` stands for Java's `null`. */
  datatype NoteRecord = NoteRecord(id: int32, patientId: int32, note: Option<string>, date: Option<Date>)

  /** Java's narrowing cast `(int)` from `long`: keeps the low 32 bits and
      reads them as a two's-complement value. */
  function LongToInt(v: int): (r: int32)
    ensures (r as int - v) % 0x1_0000_0000 == 0
    ensures -0x8000_0000 <= v <= MaxInt32 ==> r as int == v
  {
    var low := v % 0x1_0000_0000;
    if low <= MaxInt32 then low as int32 else (low - 0x1_0000_0000) as int32
  }

  /** Counter values less than 2^32 apart never narrow to the same id; in
      particular consecutive values give distinct ids. */
  lemma LongToIntInjectiveInWindow(v: int, w: int)
    requires v <= w < v + 0x1_0000_0000
    ensures LongToInt(v) == LongToInt(w) <==> v == w
  {
  }

  /** Past the largest `int` the cast wraps: the next counter value gives a
      negative id, and the value 2^32 + 1 gives id 1 again. */
  lemma LongToIntWraps()
    ensures LongToInt(MaxInt32 + 1) == -0x8000_0000
    ensures LongToInt(0x1_0000_0001) == LongToInt(1) == 1
  {
  }

  /** A mutable note, updated in place through its setters. */
  class Note {
    var id: int32
    var patientId: int32
    var note: Option<string>
    var date: Option<Date>

    /** The current field values as a record. */
    function Value(): NoteRecord
      reads this
    {
      NoteRecord(id, patientId, note, date)
    }

    /** `new Note()`: every field keeps its default. */
    constructor ()
      ensures Value() == NoteRecord(0, 0, None, None)
    {
      id, patientId, note, date := 0, 0, None, None;
    }

    /** `new Note(patientId, note)`: sets exactly those two fields. */
    constructor WithText(patientId: int32, note: string)
      ensures Value() == NoteRecord(0, patientId, Some(note), None)
    {
      this.id := 0;
      this.patientId := patientId;
      this.note := Some(note);
      this.date := None;
    }

    function GetId(): int32
      reads this
    {
      id
    }

    function GetPatientId(): int32
      reads this
    {
      patientId
    }

    function GetNote(): Option<string>
      reads this
    {
      note
    }

    function GetDate(): Option<Date>
      reads this
    {
      date
    }

    method SetId(id: int32)
      modifies this
      ensures GetId() == id
      ensures Value() == old(Value()).(id := id)
    {
      this.id := id;
    }

    method SetPatientId(patientId: int32)
      modifies this
      ensures GetPatientId() == patientId
      ensures Value() == old(Value()).(patientId := patientId)
    {
      this.patientId := patientId;
    }

    method SetNote(note: Option<string>)
      modifies this
      ensures GetNote() == note
      ensures Value() == old(Value()).(note := note)
    {
      this.note := note;
    }

    method SetDate(date: Option<Date>)
      modifies this
      ensures GetDate() == date
      ensures Value() == old(Value()).(date := date)
    {
      this.date := date;
    }
  }

  /** Field-for-field copy of a record into a fresh `Note`, as the object
      mapper does: default constructor, then one setter per field. */
  method NewNoteFrom(r: NoteRecord) returns (n: Note)
    ensures fresh(n)
    ensures n.Value() == r
  {
    n := new Note();
    n.SetId(r.id);
    n.SetPatientId(r.patientId);
    n.SetNote(r.note);
    n.SetDate(r.date);
  }
}

=== FILE: note_repository.dfy ===
/** The note collection of the document store: notes keyed by id, plus the
    order in which a full scan returns them. */
module NoteStore {
  import opened Wrappers
  import opened NoteModel

  predicate NoDuplicates(s: seq<int32>) {
    forall i, j :: 0 <= i < j < |s| ==> s[i] != s[j]
  }

  /** The notes that a scan in `order` yields. */
  function ScanOf(notes: map<int32, NoteRecord>, order: seq<int32>): (r: seq<NoteRecord>)
    requires forall k :: k in order ==> k in notes
    ensures |r| == |order|
    ensures forall i :: 0 <= i < |order| ==> r[i] == notes[order[i]]
  {
    if order == [] then [] else [notes[order[0]]] + ScanOf(notes, order[1..])
  }

  /** `order` without `id`, the other keys keeping their relative order. */
  function RemoveId(order: seq<int32>, id: int32): (r: seq<int32>)
    ensures forall k :: k in r <==> k in order && k != id
    ensures NoDuplicates(order) ==> NoDuplicates(r)
  {
    if order == [] then []
    else if order[0] == id then RemoveId(order[1..], id)
    else
      var rest := RemoveId(order[1..], id);
      assert NoDuplicates(order) ==> order[0] !in order[1..] && NoDuplicates(order[1..]);
      [order[0]] + rest
  }

  /** Removal keeps relative order: removing an id from a concatenation is
      the concatenation of the two parts with the id removed. */
  lemma {:induction false} RemoveIdKeepsOrder(a: seq<int32>, b: seq<int32>, id: int32)
    ensures RemoveId(a + b, id) == RemoveId(a, id) + RemoveId(b, id)
  {
    if a == [] {
      assert a + b == b;
    } else {
      assert (a + b)[1..] == a[1..] + b;
      RemoveIdKeepsOrder(a[1..], b, id);
    }
  }

  /** A duplicate-free sequence has as many distinct elements as entries. */
  lemma {:induction false} DistinctCount(s: seq<int32>)
    requires NoDuplicates(s)
    ensures |set k | k in s| == |s|
  {
    if s != [] {
      DistinctCount(s[1..]);
      assert (set k | k in s) == {s[0]} + (set k | k in s[1..]);
      assert s[0] !in (set k | k in s[1..]);
    }
  }

  class NoteRepository {
    var notes: map<int32, NoteRecord>
    var order: seq<int32>

    /** Every stored note sits under its own id, and the scan order lists
        every stored id exactly once. */
    ghost predicate Valid()
      reads this
    {
      && (forall k :: k in notes ==> notes[k].id == k)
      && (forall k :: k in order <==> k in notes)
      && NoDuplicates(order)
    }

    constructor ()
      ensures Valid() && notes == map[] && order == []
    {
      notes, order := map[], [];
    }

    /** The note stored under `id`, or `None` when there is none. */
    function FindById(id: int32): (r: Option<NoteRecord>)
      reads this
      ensures r.Some? <==> id in notes
      ensures r.Some? ==> r.value == notes[id]
      ensures Valid() && r.Some? ==> r.value.id == id
    {
      if id in notes then Some(notes[id]) else None
    }

    /** Every stored note, in scan order. */
    function FindAll(): (r: seq<NoteRecord>)
      reads this
      requires Valid()
      ensures |r| == |order|
      ensures forall i :: 0 <= i < |order| ==> r[i] == notes[order[i]]
    {
      ScanOf(notes, order)
    }

    /** A full scan yields each stored note exactly once. */
    lemma FindAllIsComplete()
      requires Valid()
      ensures |FindAll()| == |notes|
      ensures forall n :: n in FindAll() <==> n.id in notes && notes[n.id] == n
    {
      DistinctCount(order);
      assert (set k | k in order) == notes.Keys;
      forall n: NoteRecord | n.id in notes && notes[n.id] == n
        ensures n in FindAll()
      {
        var i :| 0 <= i < |order| && order[i] == n.id;
        assert FindAll()[i] == n;
      }
    }

    /** Insert, or replace the note stored under the same id. */
    method Save(n: NoteRecord) returns (saved: NoteRecord)
      requires Valid()
      modifies this
      ensures Valid()
      ensures saved == n
      ensures notes == old(notes)[n.id := n]
      ensures order == if n.id in old(notes) then old(order) else old(order) + [n.id]
    {
      if n.id !in notes {
        order := order + [n.id];
      }
      notes := notes[n.id := n];
      saved := n;
    }

    /** Remove the note stored under the id of `n`. */
    method Delete(n: NoteRecord)
      requires Valid()
      modifies this
      ensures Valid()
      ensures notes == old(notes) - {n.id}
      ensures order == RemoveId(old(order), n.id)
    {
      notes := notes - {n.id};
      order := RemoveId(order, n.id);
    }
  }
}

=== FILE: note_service.dfy ===
/** The note service: lookups that fail with a not-found error, full-scan
    listings, creation with a freshly minted id, update and delete. */
module NoteServices {
  import opened Wrappers
  import opened NoteModel
  import opened NoteErrors
  import opened SequenceGeneration
  import opened NoteStore

  /** The transfer object carries the same four fields as the persisted
      note, and the object mapper copies them one for one. */
  type NoteDto = NoteRecord

  /** The notes of one patient, in scan order (the stream filter). */
  function NotesOfPatient(scan: seq<NoteRecord>, patientId: int32): (r: seq<NoteRecord>)
    ensures |r| <= |scan|
    ensures forall n :: n in r <==> n in scan && n.patientId == patientId
    ensures (forall i :: 0 <= i < |scan| ==> scan[i].patientId != patientId) ==> r == []
    ensures (forall i :: 0 <= i < |scan| ==> scan[i].patientId == patientId) ==> r == scan
  {
    if scan == [] then []
    else if scan[0].patientId == patientId then [scan[0]] + NotesOfPatient(scan[1..], patientId)
    else NotesOfPatient(scan[1..], patientId)
  }

  /** Filtering keeps the scan order: filtering a concatenation is the
      concatenation of the filtered parts. */
  lemma {:induction false} NotesOfPatientKeepsOrder(a: seq<NoteRecord>, b: seq<NoteRecord>, patientId: int32)
    ensures NotesOfPatient(a + b, patientId) == NotesOfPatient(a, patientId) + NotesOfPatient(b, patientId)
  {
    if a != [] {
      assert (a + b)[1..] == a[1..] + b;
      NotesOfPatientKeepsOrder(a[1..], b, patientId);
    } else {
      assert a + b == b;
    }
  }

  class NoteService {
    const repository: NoteRepository
    const generator: SequenceGenerator

    ghost predicate Valid()
      reads this, repository
    {
      repository.Valid()
    }

    /** Every stored id was minted by the note sequence: it lies between 1
        and the sequence's counter. */
    ghost predicate IdsIssued()
      reads this, repository, generator
    {
      forall k :: k in repository.notes ==> 1 <= k as int <= generator.Current(SequenceName)
    }

    constructor (repository: NoteRepository, generator: SequenceGenerator)
      requires repository.Valid()
      ensures Valid()
      ensures this.repository == repository && this.generator == generator
    {
      this.repository := repository;
      this.generator := generator;
    }

    /** The stored note with this id, or the not-found error. */
    function FindNoteById(id: int32): (r: Result<NoteDto, NoteNotFound>)
      reads this, repository
      ensures id in repository.notes ==> r == Ok(repository.notes[id])
      ensures id !in repository.notes ==> r == Err(NoteNotFound(id))
    {
      match repository.FindById(id)
      case Some(n) => Ok(n)
      case None => Err(NoteNotFound(id))
    }

    /** One entry per stored note, in the store's scan order. */
    function GetAllNotes(): (r: seq<NoteDto>)
      reads this, repository
      requires Valid()
      ensures |r| == |repository.notes| == |repository.order|
      ensures forall i :: 0 <= i < |r| ==> r[i] == repository.notes[repository.order[i]]
      ensures forall n :: n in r <==> n.id in repository.notes && repository.notes[n.id] == n
    {
      repository.FindAllIsComplete();
      repository.FindAll()
    }

    /** Exactly the stored notes of this patient, in scan order. */
    function GetNotesByPatientId(patientId: int32): (r: seq<NoteDto>)
      reads this, repository
      requires Valid()
      ensures r == NotesOfPatient(GetAllNotes(), patientId)
      ensures forall n :: n in r <==> n.id in repository.notes && repository.notes[n.id] == n && n.patientId == patientId
      ensures (forall k :: k in repository.notes ==> repository.notes[k].patientId != patientId) ==> r == []
    {
      var all := GetAllNotes();
      assert forall k :: k in repository.notes ==> repository.notes[k] in all;
      NotesOfPatient(all, patientId)
    }

    /** Mints the next id of the note sequence, stamps today's date and saves
        the note; any id or date the input carries is discarded. `reported`
        says whether the sequence store hands back the counter document. */
    method CreateNote(dto: NoteDto, today: Date, reported: bool) returns (created: NoteDto)
      requires Valid()
      modifies repository, generator
      ensures Valid()
      ensures generator.counters == if reported then Increment(old(generator.counters), SequenceName)
                                    else old(generator.counters)
      ensures created == NoteRecord(LongToInt(if reported then old(generator.Current(SequenceName)) + 1 else 1),
                                    dto.patientId, dto.note, Some(today))
      ensures !reported ==> created.id == 1
      ensures repository.notes == old(repository.notes)[created.id := created]
      ensures repository.order == if created.id in old(repository.notes) then old(repository.order)
                                  else old(repository.order) + [created.id]
      ensures FindNoteById(created.id) == Ok(created)
      ensures reported && old(IdsIssued()) && old(generator.Current(SequenceName)) < MaxInt32 ==>
                && created.id as int == generator.Current(SequenceName)
                && created.id !in old(repository.notes)
                && IdsIssued()
    {
      var note := NewNoteFrom(dto);
      var next := generator.GenerateSequence(SequenceName, reported);
      note.SetId(LongToInt(next));
      note.SetDate(Some(today));
      created := repository.Save(note.Value());
    }

    /** Overwrites patient id, text and date of the stored note; the id and
        every other note stay as they were. */
    method UpdateNote(id: int32, dto: NoteDto, today: Date) returns (r: Result<NoteDto, NoteNotFound>)
      requires Valid()
      modifies repository
      ensures Valid()
      ensures id !in old(repository.notes) ==> r == Err(NoteNotFound(id)) && unchanged(repository)
      ensures id in old(repository.notes) ==>
                && r == Ok(old(repository.notes[id]).(patientId := dto.patientId, note := dto.note, date := Some(today)))
                && r.value.id == id
                && repository.notes == old(repository.notes)[id := r.value]
                && repository.order == old(repository.order)
                && FindNoteById(id) == r
      ensures old(IdsIssued()) ==> IdsIssued()
    {
      match repository.FindById(id)
      case None =>
        r := Err(NoteNotFound(id));
      case Some(found) =>
        var note := NewNoteFrom(found);
        note.SetDate(Some(today));
        note.SetPatientId(dto.patientId);
        note.SetNote(dto.note);
        var saved := repository.Save(note.Value());
        r := Ok(saved);
    }

    /** Removes the stored note; afterwards a lookup of the id fails. */
    method DeleteNote(id: int32) returns (r: Result<(), NoteNotFound>)
      requires Valid()
      modifies repository
      ensures Valid()
      ensures id !in old(repository.notes) ==> r == Err(NoteNotFound(id)) && unchanged(repository)
      ensures id in old(repository.notes) ==>
                && r == Ok(())
                && repository.notes == old(repository.notes) - {id}
                && repository.order == RemoveId(old(repository.order), id)
      ensures FindNoteById(id) == Err(NoteNotFound(id))
      ensures old(IdsIssued()) ==> IdsIssued()
    {
      match repository.FindById(id)
      case None =>
        r := Err(NoteNotFound(id));
      case Some(found) =>
        repository.Delete(found);
        r := Ok(());
    }
  }

  /** The note sequence is the fixed name "users_sequence", and minting a
      note id advances no other sequence. */
  lemma NoteIdsUseOwnSequence(counters: map<string, nat>, other: string)
    requires other != SequenceName
    ensures SequenceName == "users_sequence"
    ensures CounterOf(Increment(counters, SequenceName), other) == CounterOf(counters, other)
  {
  }

  /** Two creations for patient 2 into an empty store get ids 1 and 2 and
      are stored in that order. */
  method CreateTwoNotes(service: NoteService, today: Date) returns (first: NoteDto, second: NoteDto)
    requires service.Valid()
    requires service.repository.notes == map[] && service.repository.order == []
    requires service.generator.Current(SequenceName) == 0
    modifies service.repository, service.generator
    ensures service.Valid()
    ensures service.generator.Current(SequenceName) == 2
    ensures first == NoteRecord(1, 2, Some("firstNote"), Some(today))
    ensures second == NoteRecord(2, 2, Some("secondNote"), Some(today))
    ensures service.repository.order == [1, 2]
    ensures 1 in service.repository.notes && service.repository.notes[1] == first
    ensures 2 in service.repository.notes && service.repository.notes[2] == second
  {
    first := service.CreateNote(NoteRecord(0, 2, Some("firstNote"), None), today, true);
    assert first.id == 1;
    assert service.generator.Current(SequenceName) == 1 && service.repository.order == [1];
    second := service.CreateNote(NoteRecord(0, 2, Some("secondNote"), None), today, true);
    assert second.id == 2;
  }

  /** From an empty store, two notes for patient 2 are listed in creation
      order, both in the full listing and in the patient's listing. */
  method TwoNotesForOnePatient(today: Date)
    returns (first: NoteDto, second: NoteDto, all: seq<NoteDto>, ofPatient: seq<NoteDto>)
    ensures first == NoteRecord(1, 2, Some("firstNote"), Some(today))
    ensures second == NoteRecord(2, 2, Some("secondNote"), Some(today))
    ensures all == [first, second]
    ensures ofPatient == [first, second]
  {
    var repository := new NoteRepository();
    var generator := new SequenceGenerator();
    var service := new NoteService(repository, generator);
    first, second := CreateTwoNotes(service, today);
    all := service.GetAllNotes();
    assert |all| == 2 && all[0] == first && all[1] == second;
    assert all == [first, second];
    assert forall i :: 0 <= i < |all| ==> all[i].patientId == 2;
    ofPatient := service.GetNotesByPatientId(2);
  }

  /** After the two notes of patient 2, a note created for patient 1 gets
      id 3; updating it to patient 6 keeps id 3, and deleting it succeeds
      once, after which a second delete and a lookup fail with not-found. */
  method ThirdNoteUpdatedThenDeleted(today: Date)
    returns (third: NoteDto, updated: Result<NoteDto, NoteNotFound>, deleted: Result<(), NoteNotFound>,
             deletedAgain: Result<(), NoteNotFound>, found: Result<NoteDto, NoteNotFound>)
    ensures third == NoteRecord(3, 1, Some("thirdNote"), Some(today))
    ensures updated == Ok(NoteRecord(3, 6, Some("fourthNote"), Some(today)))
    ensures deleted == Ok(())
    ensures deletedAgain == Err(NoteNotFound(3))
    ensures found == Err(NoteNotFound(3))
  {
    var repository := new NoteRepository();
    var generator := new SequenceGenerator();
    var service := new NoteService(repository, generator);
    var first, second := CreateTwoNotes(service, today);
    third := service.CreateNote(NoteRecord(0, 1, Some("thirdNote"), None), today, true);
    assert third.id == 3;
    updated := service.UpdateNote(3, NoteRecord(0, 6, Some("fourthNote"), None), today);
    deleted := service.DeleteNote(3);
    deletedAgain := service.DeleteNote(3);
    found := service.FindNoteById(3);
  }

  /** When the sequence store reports no counter document after two notes
      were created, the fallback id 1 is issued again and the new note
      replaces the first one in place. */
  method FallbackOverwritesFirstNote(today: Date)
    returns (first: NoteDto, second: NoteDto, third: NoteDto, all: seq<NoteDto>)
    ensures first == NoteRecord(1, 2, Some("firstNote"), Some(today))
    ensures third == NoteRecord(1, 1, Some("thirdNote"), Some(today))
    ensures all == [third, second]
    ensures first !in all
  {
    var repository := new NoteRepository();
    var generator := new SequenceGenerator();
    var service := new NoteService(repository, generator);
    first, second := CreateTwoNotes(service, today);
    third := service.CreateNote(NoteRecord(0, 1, Some("thirdNote"), None), today, false);
    assert third.id == 1;
    assert repository.order == [1, 2];
    all := service.GetAllNotes();
    assert |all| == 2 && all[0] == third && all[1] == second;
    assert all == [third, second];
  }
}

=== FILE: sequence_generator.dfy ===
/** The sequence generator: one counter per sequence name, advanced by the
    store's atomic "find, increment by one, create if absent, return the new
    document" operation. */
module SequenceGeneration {
  import opened Wrappers

  /** The counter document the store returns: the sequence's name and its
      post-increment value. */
  datatype DatabaseSequence = DatabaseSequence(name: string, value: int)

  /** The counter of a sequence; a sequence never used counts as 0. */
  function CounterOf(counters: map<string, nat>, name: string): nat {
    if name in counters then counters[name] else 0
  }

  /** The store's upsert-and-increment on the counter table. */
  function Increment(counters: map<string, nat>, name: string): (after: map<string, nat>)
    ensures after.Keys == counters.Keys + {name}
    ensures CounterOf(after, name) == CounterOf(counters, name) + 1
    ensures forall other :: other != name ==> CounterOf(after, other) == CounterOf(counters, other)
  {
    counters[name := CounterOf(counters, name) + 1]
  }

  /** What the generator hands out for the store's reply: the counter's
      value, or 1 when the store reported no document. */
  function SequenceValue(reply: Option<DatabaseSequence>): (v: int)
    ensures reply.Some? ==> v == reply.value.value
    ensures reply.None? ==> v == 1
  {
    match reply
    case Some(counter) => counter.value
    case None => 1
  }

  /** For a sequence that does not exist yet, the fallback coincides with
      the first value the store's upsert would issue. */
  lemma FallbackIsFirstValue(counters: map<string, nat>, name: string)
    requires name !in counters
    ensures SequenceValue(None) == CounterOf(Increment(counters, name), name)
    ensures SequenceValue(None) == SequenceValue(Some(DatabaseSequence(name, CounterOf(Increment(counters, name), name))))
  {
  }

  /** Once a sequence has issued a value, the fallback re-issues one: the
      counter having reached c from nothing, the values 1 to c were handed
      out, and the fallback's 1 is among them. */
  lemma FallbackReissuesUsedValue(counters: map<string, nat>, name: string)
    requires CounterOf(counters, name) >= 1
    ensures SequenceValue(None) <= CounterOf(counters, name)
    ensures SequenceValue(None) in Issued(map[], name, CounterOf(counters, name))
  {
    IssuedIncreasing(map[], name, CounterOf(counters, name));
    assert Issued(map[], name, CounterOf(counters, name))[0] == 1;
  }

  /** The values that `k` successive calls for `name` that the store
      reports hand out. */
  function Issued(counters: map<string, nat>, name: string, k: nat): seq<int>
    decreases k
  {
    if k == 0 then []
    else [CounterOf(counters, name) + 1] + Issued(Increment(counters, name), name, k - 1)
  }

  /** `k` successive calls that the store reports give `k` strictly
      increasing positive values, starting just past the counter. */
  lemma {:induction false} IssuedIncreasing(counters: map<string, nat>, name: string, k: nat)
    ensures |Issued(counters, name, k)| == k
    ensures forall i :: 0 <= i < k ==> Issued(counters, name, k)[i] == CounterOf(counters, name) + 1 + i
    ensures forall i, j :: 0 <= i < j < k ==> 0 < Issued(counters, name, k)[i] < Issued(counters, name, k)[j]
    decreases k
  {
    if k > 0 {
      IssuedIncreasing(Increment(counters, name), name, k - 1);
    }
  }

  class SequenceGenerator {
    /** The counter table: sequence name to last-issued value. */
    var counters: map<string, nat>

    constructor ()
      ensures counters == map[]
    {
      counters := map[];
    }

    function Current(name: string): nat
      reads this
    {
      CounterOf(counters, name)
    }

    /** The store's atomic find-and-modify with upsert and "return new".
        `reported` says whether the store hands back the counter document;
        when it does not, no counter is taken to have changed. */
    method FindAndModify(name: string, reported: bool) returns (reply: Option<DatabaseSequence>)
      modifies this
      ensures counters == if reported then Increment(old(counters), name) else old(counters)
      ensures reply == if reported then Some(DatabaseSequence(name, Current(name))) else None
    {
      if reported {
        counters := Increment(counters, name);
        reply := Some(DatabaseSequence(name, counters[name]));
      } else {
        reply := None;
      }
    }

    /** Next value of the named sequence: one more than any value issued for
        that name before when the store reports the counter, 1 otherwise. */
    method GenerateSequence(name: string, reported: bool) returns (v: int)
      modifies this
      ensures reported ==> v == old(Current(name)) + 1 && v == Current(name)
      ensures !reported ==> v == 1
      ensures counters == if reported then Increment(old(counters), name) else old(counters)
    {
      var reply := FindAndModify(name, reported);
      v := SequenceValue(reply);
    }
  }

  /** `k` successive calls for `name` that the store reports hand out
      exactly the values `Issued` describes. */
  method GenerateReported(g: SequenceGenerator, name: string, k: nat) returns (vs: seq<int>)
    modifies g
    ensures vs == Issued(old(g.counters), name, k)
  {
    ghost var start := g.counters;
    vs := [];
    var i := 0;
    while i < k
      invariant 0 <= i <= k
      invariant vs + Issued(g.counters, name, k - i) == Issued(start, name, k)
    {
      ghost var before := g.counters;
      var v := g.GenerateSequence(name, true);
      assert Issued(before, name, k - i) == [v] + Issued(g.counters, name, k - i - 1);
      vs := vs + [v];
      i := i + 1;
    }
  }
}

=== FILE: wrappers.dfy ===
/** Option and result wrappers: Java's `Optional`/nullable values and
    results that either carry a value or the exception a call throws. */
module Wrappers {

  datatype Option<+T> = None | Some(value: T)

  datatype Result<+T, +E> = Ok(value: T) | Err(error: E)
}
